=== FILE: README.md ===
# A multiplayer platform game's logic in Dafny

This project models the deterministic parts of a small multiplayer
platform game written in TypeScript, and proves properties about them:

- **`Atob`** (`src/atob.ts`) is the forgiving base64 decoder `atobJS`. It
  uses the alphabet of section 4 of RFC 4648 and follows the
  forgiving-base64 decode of section 7 of the WHATWG Infra Standard. It
  removes ASCII whitespace and, when the length is a multiple of four, one
  or two trailing `=`. It then rejects lengths of 1 modulo 4 and
  characters outside the alphabet. The rest goes through the 6-bit
  accumulation loop and the 12- or 18-bit tail. The decoder exists as the
  function `Decode`, and as the method `AtobJS` with the source's loop,
  proved equal to `Decode`. A reference encoder, `Encode`, gives the round
  trip.
- **`Physics`** (`src/simplephysics.ts`) is a world with an append-only
  list of box and cylinder bodies. `translate` moves a body. `resolve`
  visits the dynamic bodies and does nothing. The id counter `nextBodyId`
  is read and never advanced, so every body shares one id. The model keeps
  this behaviour.
- **`Logic`** (`src/logic.ts`) is the game state and its three callbacks:
  - `setup`;
  - the per-tick `update`: a square-wave platform velocity, then player
    walking, carrying and gravity;
  - the `update` action, which finds or inserts a player.

  The SDK clock `Dusk.gameTime()` is the integer parameter `time`. Numbers
  are reals, except a mover's `interval`, which is an integer. The
  `number[]` triples are `Vec3`s.
- **`Client`** (`src/client.ts`) covers only the pure helpers:
  - `getSelectedPlayerType`;
  - the key and joystick mapping of `updateKeys`;
  - the `currentTarget` step of `updateTarget`.

  `PLAYER_TYPES.length` is the parameter `n > 0`.

Shared modules:

- `Results` holds `Option` (JavaScript's `undefined`) and `Result`, where
  an error result is a thrown `Error`.
- `Vectors` holds `Vec3`.
- `JsNumber` holds JavaScript's truncating `%` (`Rem`), related to Dafny's
  Euclidean `%`.

`src/simplephysics.ts` has no collision handling: the loop body of
`resolve` (lines 72-74) is empty, and the model follows it.

## Model

| member | source | states |
|---|---|---|
| JsNumber.Rem | src/logic.ts:64 | JavaScript `%` on integers: its magnitude is below the divisor's. It equals the Euclidean remainder for a non-negative dividend. For a negative one it is 0 or the Euclidean remainder minus the divisor's magnitude. |
| Atob.Digit | src/atob.ts:40-41 | every 6-bit value has an alphabet character |
| Atob.SextetOf | src/atob.ts:40-41 | every alphabet character is the digit of exactly the value returned (inverse of `Digit`) |
| Atob.KeystrAt | src/atob.ts:40-41 | `keystr` has 64 characters and its i-th character encodes the value i |
| Atob.IndexOf | src/atob.ts:44 | `indexOf` returns the first position holding the character, and -1 exactly when it is absent |
| Atob.KeystrIndex | src/atob.ts:43-46 | `keystr.indexOf(c)` is non-negative exactly for alphabet characters, and is then the value `c` encodes |
| Atob.Lookup | src/atob.ts:43-47 | `atobLookup` is defined exactly on the alphabet, and its value is the one whose digit is `c` |
| Atob.StripWhitespace | src/atob.ts:7 | the result is no longer than the input and holds no space, tab, LF, FF or CR |
| Atob.TrimPadding | src/atob.ts:9 | `/==?$/` removes a prefix-preserving suffix of at most two `=`, and leaves no removable `=` behind |
| Atob.AtobJS | src/atob.ts:1-38 | the source's statement sequence and loop compute `Decode` |
| Atob.Accumulate | src/atob.ts:15-36 | the loop's final state, finished by the 12- or 18-bit tail handling, is the group-by-group decoding of the characters' values (three bytes per group of four, then one or two) |
| Atob.FoldState | src/atob.ts:18-28 | after 4g+r digits the loop has flushed exactly the first g groups, and holds the last r digits with 6r bits pending |
| Atob.FinishMatchesGroups | src/atob.ts:29-36 | loop plus tail handling equals the group-wise decoding (three characters per group, then one or two for the tail) |
| Atob.BufferBound | src/atob.ts:19-21 | the buffer stays below 2^18 between iterations, so the 32-bit shift never overflows |
| Atob.DecodeGroupsShape | src/atob.ts:22-26 | each complete group adds three characters, each a byte |
| Atob.DecodeOutput | src/atob.ts:18-36 | a successful decode of n prepared characters has length 3·(n div 4), plus 1 if n mod 4 = 2, plus 2 if n mod 4 = 3. Every code unit is below 256. |
| Atob.StripAppend | src/atob.ts:7 | whitespace removal distributes over concatenation |
| Atob.StripIdentity | src/atob.ts:7 | whitespace removal keeps a whitespace-free string unchanged |
| Atob.StripAllWhitespace | src/atob.ts:7 | whitespace removal empties an all-whitespace string |
| Atob.StripInsert | src/atob.ts:7 | whitespace inserted anywhere disappears after removal |
| Atob.WhitespaceIrrelevant | src/atob.ts:7 | inserting whitespace anywhere changes neither the result nor whether decoding fails |
| Atob.AcceptedIsWellFormed | src/atob.ts:8-13 | an accepted input has the shape: alphabet characters, then at most two `=`, which are allowed only on a length divisible by 4 |
| Atob.WellFormedIsAccepted | src/atob.ts:8-13 | every input of that shape is accepted |
| Atob.DecodeSucceedsIff | src/atob.ts:7-13 | decoding succeeds if and only if the whitespace-free input has that shape |
| Atob.PaddingOnlyAtEnd | src/atob.ts:8-13 | in an accepted input a `=` stands only among the last two characters, and only when the length is divisible by 4 |
| Atob.PackRangeAgree | src/atob.ts:19-20 | digits that agree pack to the same buffer |
| Atob.DecodeGroupsAgree | src/atob.ts:18-28 | complete groups decode from their own digits only |
| Atob.TailTwoIgnoresLowBits | src/atob.ts:29-31 | the four low bits of the last digit of a 2-digit tail do not affect the output |
| Atob.TailThreeIgnoresLowBits | src/atob.ts:32-35 | the two low bits of the last digit of a 3-digit tail do not affect the output |
| Atob.TailTwoValue | src/atob.ts:29-31 | a 2-digit tail yields one byte: the first digit and the top two bits of the second |
| Atob.TailThreeValue | src/atob.ts:32-35 | a 3-digit tail yields two bytes: the 16 top bits of its 18 |
| Atob.PackTwo | src/atob.ts:19-20 | two digits pack to 64·a + b |
| Atob.PackThree | src/atob.ts:19-20 | three digits pack to 4096·a + 64·b + c |
| Atob.PackFour | src/atob.ts:19-20 | four digits pack to 262144·a + 4096·b + 64·c + d |
| Atob.SextetsOfDigits | src/atob.ts:43-47 | looking up the digit of any value returns that value |
| Atob.PreparedCanonical | src/atob.ts:7-10 | a canonical digit string with its padding is prepared to exactly its digits |
| Atob.DecodeCanonical | src/atob.ts:7-37 | a canonical digit string with its padding decodes to the decoding of its digits |
| Atob.GroupRoundTrip | src/atob.ts:19-25 | three bytes split into four digits are flushed back as those three bytes |
| Atob.GroupsStep | src/atob.ts:22-26 | one more encoded group adds its three bytes to the output |
| Atob.GroupsRoundTrip | src/atob.ts:18-28 | all complete encoded groups decode to the bytes they encode |
| Atob.TailRoundTrip | src/atob.ts:29-36 | a final one or two bytes come back from their two or three digits |
| Atob.TailOneByte | src/atob.ts:29-31 | one byte split into two digits (with zero padding bits) comes back as that byte |
| Atob.TailTwoBytes | src/atob.ts:32-35 | two bytes split into three digits come back as those two bytes |
| Atob.DecodeEncodeSextets | src/atob.ts:15-37 | decoding the digits of any byte sequence returns that sequence |
| Atob.RoundTrip | src/atob.ts:1-38 | the standard padded base64 of any byte sequence is accepted and decodes to that sequence |
| Atob.DecodeHello | src/atob.ts:1-38 | `SGVsbG8=` decodes to `Hello` |
| Atob.DecodeDiscardsLowBits | src/atob.ts:29-31 | `QQ==` and `QR==` both decode to `A` |
| Physics.CreateWorld | src/simplephysics.ts:27-33 | a new world has no bodies, the given step size, and `nextBodyId` 1 |
| Physics.CreateBody | src/simplephysics.ts:35-61 | a creation appends exactly the returned body. That body takes the current `nextBodyId` and the given shape, flags and geometry. Step size and counter are unchanged. |
| Physics.CreateBox | src/simplephysics.ts:35-47 | one body is appended after the untouched earlier ones, and it is the returned box: type `BOX`, id `nextBodyId`, the given arguments. The counter does not advance. |
| Physics.CreateCylinder | src/simplephysics.ts:49-61 | as `CreateBox`, with type `CYLINDER` |
| Physics.Translate | src/simplephysics.ts:63-67 | the center moves by `delta` component-wise; size, angle, id, type and `dynamic` are unchanged |
| Physics.TranslateBack | src/simplephysics.ts:63-67 | translating by the opposite vector restores the body |
| Physics.TranslateTwice | src/simplephysics.ts:63-67 | two translations equal one by the sum |
| Physics.TranslateAt | src/simplephysics.ts:45-46 | moving a body the world holds changes only that element; a body not in the world leaves the world unchanged |
| Physics.Dynamics | src/simplephysics.ts:70 | the filter keeps every dynamic body exactly as often as it occurs and drops every other body |
| Physics.DynamicsAppend | src/simplephysics.ts:70 | the filter keeps the order: filtering a concatenation concatenates the filtered parts |
| Physics.Resolve | src/simplephysics.ts:69-75 | `resolve` returns the world unchanged |
| Physics.RunKeepsSettings | src/simplephysics.ts:27-75 | no sequence of calls changes `allowedStepSize` or `nextBodyId` |
| Physics.RunAppendsOnly | src/simplephysics.ts:35-67 | any sequence of calls adds one body per creation and removes none. Existing bodies change only in position. |
| Physics.RunSharesId | src/simplephysics.ts:42 | if all bodies carry the world's `nextBodyId`, they still do after any sequence of calls |
| Physics.FreshWorldIdsAreOne | src/simplephysics.ts:31 | starting from `createWorld`, every body ever created has id 1 |
| Physics.ConsecutiveCreationsShareId | src/simplephysics.ts:42-56 | a box and a cylinder created one after the other get the same id |
| Logic.Setup | src/logic.ts:46-60 | no actors; exactly one mover, `platform003`: `"Z"`, distance 0.1, interval 5000, velocity zero |
| Logic.SetupFirstTick | src/logic.ts:46-66 | from `setup`, a tick leaves no actors and sets the platform's velocity to `[0, 0, 0.1]` in the first half of every 5000 time units and to `[0, 0, -0.1]` in the second |
| Logic.Phase | src/logic.ts:64 | the phase is `NaN` exactly when the interval is 0 |
| Logic.MoverVelocity | src/logic.ts:65 | the velocity is `[0, 0, ±distance]`, and `-distance` when the interval is 0 |
| Logic.UpdateMovers | src/logic.ts:63-66 | every mover, and no other key, gets the velocity for the current time |
| Logic.SquareWave | src/logic.ts:64-65 | for t ≥ 0 and a positive interval, z is `distance` exactly when 2·(t mod interval) < interval, else `-distance` |
| Logic.VelocityPeriodic | src/logic.ts:64-65 | the velocity repeats after one interval |
| Logic.Fall | src/logic.ts:81-89 | when airborne, `t[1]` grows by `vy` and `vy` becomes the larger of `vy - 0.05` and -0.5. Otherwise both are unchanged. |
| Logic.StepActor | src/logic.ts:67-90 | a player without `dir` is unchanged; otherwise only `t` and `vy` change |
| Logic.Tick | src/logic.ts:62-92 | the player count and mover keys are kept; every mover gets the velocity for the current time, and each player is then stepped against those new velocities |
| Logic.TickRidesPlatform | src/logic.ts:63-79 | a moving player on a known platform moves along z by `dir[2]/30` plus the velocity the same tick has just given that platform |
| Logic.StepPosition | src/logic.ts:71-84 | `t[0]`, `t[2]` grow by `dir/30` plus the carrying platform's velocity. `t[1]` grows by the platform's vertical velocity, plus `vy` when airborne. |
| Logic.StepIgnoresDirY | src/logic.ts:69-72 | `dir[1]` has no effect on the step |
| Logic.UnknownPlatformAddsNothing | src/logic.ts:73-80 | an unset, empty or unknown `on` adds no platform velocity |
| Logic.StepVy | src/logic.ts:81-89 | a `vy` at or above -0.5 stays at or above -0.5 and does not grow. One below is kept, or raised to -0.5. |
| Logic.TicksKeepIds | src/logic.ts:62-92 | any number of ticks keep the player ids in order and the mover keys, whatever the players' vertical speeds |
| Logic.TicksInvariant | src/logic.ts:81-89 | from a state where every `vy ≥ -0.5`, any number of ticks keep that bound |
| Logic.FindActor | src/logic.ts:96 | `find` returns the first player with the id, and none exactly when no player has it |
| Logic.Action | src/logic.ts:95-116 | an unknown `state.id` appends one player and keeps the others; a known one is overwritten in place; movers are untouched |
| Logic.NewActorCopies | src/logic.ts:98-102 | a new player copies every field of `state` except `id := playerId` and `dir := [0,0,0]` |
| Logic.ActionOnKnown | src/logic.ts:103-115 | the count and id are kept, and the other players are unchanged. `q`, `t`, `moving`, `on`, `onGround` and `vy` take `state`'s values. `dir` is the move from the old to the new position when moving, else zero. `baseY` becomes the new `t[1]` only on the ground. |
| Logic.ActionTwiceOwnId | src/logic.ts:96-102 | with `state.id == playerId`, a second identical action adds no player |
| Logic.ActionForeignIdAppends | src/logic.ts:96-102 | with `state.id != playerId` and no match, two actions append two players |
| Client.SelectedPlayerType | src/client.ts:314-316 | the selected type is in 0..n-1 and equals the Euclidean remainder of `selectTarget` by n |
| Client.ShiftedRemainder | src/client.ts:315 | the shifted negative target is non-negative and has the same remainder |
| Client.SelectionPeriodic | src/client.ts:315 | a full turn of the wheel selects the same type |
| Client.UpdateKeys | src/client.ts:230-254 | each axis is decided by priority: the stick beyond its dead zone, then `d`/`s`, then `a`/`w`, else 0. Both axes are in {-1, 0, 1} and `jump` is unchanged. |
| Client.IdleControls | src/client.ts:231-246 | no key pressed and a centred stick give x = y = 0 |
| Client.StepTarget | src/client.ts:294-305 | the step moves by at most 0.05 toward the target, never passes it, and is a full step unless it lands on the target |
| Client.FollowArrives | src/client.ts:294-305 | enough frames to cover the distance bring `currentTarget` exactly to the target |

## Left out

- The `arguments.length === 0` check and the `${data}` conversion (src/atob.ts:2-6): the argument is a string.
- JavaScript's 32-bit `<<=`, `|=`, `&` and `>>` on the buffer are written as arithmetic on a `nat`. `BufferBound` shows the buffer never needs more than 24 bits, so the two agree.
- `atobLookup` returning `undefined` inside the loop becomes `buffer |= 0`. Validation makes it unreachable.
- `keystr` is written as its three runs plus `+/`, which spell the source's literal, rather than as the 64-character literal.
- Atob.StripWhitespace: its contract states only the length bound and the absence of whitespace. Which characters are kept, and in what order, is stated by `StripAppend`, `StripIdentity` and `StripAllWhitespace`.
- JavaScript strings are UTF-16 code units, while a Dafny `char` is a Unicode scalar value. A lone surrogate cannot be written, and a character outside the BMP is one `char` here but two code units in the source. Both fall outside the base64 alphabet, so decoding rejects them in both.
- A mover's `interval` is an integer: the only mover has interval 5000, and a fractional interval is not modelled.
- IEEE-754 numbers are modelled as reals. `NaN` appears only as the phase for a zero interval. A stick axis that is `NaN` is not modelled.
- `number[]` arrays other than length 3 (missing entries read as `undefined`) are not modelled. `q` is only copied.
- Logic.UnknownPlatformAddsNothing: the map `moving` is modelled with its own keys only. In the source `game.moving` is a plain object (src/logic.ts:49), so an `on` naming an `Object.prototype` member (`"constructor"`, `"toString"`, `"__proto__"`, ...) finds a truthy value whose `velocity` is `undefined`. `influence.velocity[0]` then throws and the tick fails. The model treats such an `on` as unknown and adds no velocity.
- Object spread in the action copies the declared `PlayerState` fields only; undeclared extra properties are not modelled.
- Aliasing of the `center` object between the caller and the body is not modelled. `TranslateAt` models the one aliasing that matters, where the returned body is the world's element.
- Collision detection and response are not modelled: `src/simplephysics.ts` has none.
- The Dusk SDK (`Dusk.initLogic` and its options, `Dusk.gameTime`, `Dusk.actions`, `Dusk.initClient`) is left out. The callbacks are pure functions and the clock is a parameter.
- From `src/client.ts`, only the three helpers are modelled. Left out: rendering, DOM, audio, joystick wiring, the jump timer, `Date.now()` throttling, and the wheel rotation and name display of `updateTarget` (lines 306-311).
- `src/modelLoader.ts` (asset loading) and `vite.config.ts` (build configuration) are not part of this model.
- `PLAYER_TYPES` is imported by `src/client.ts` (line 7) but not defined in `src/logic.ts`. Its length is the parameter `n > 0`.

=== FILE: atob.dfy ===
/** The forgiving base64 decoder of `src/atob.ts` (`atobJS`): the alphabet of
    section 4 of RFC 4648, decoded as section 7 of the WHATWG Infra Standard
    ("forgiving-base64 decode") describes. Text is `seq<char>`, one `char`
    per character; every decoded character is a byte. */
module Atob {
  import opened Results
  import JsNumber

  /** `atobJS` throws `new Error("Invalid input")`; this is its only error. */
  datatype DecodeError = InvalidInput

  type Byte = b: int | 0 <= b < 0x100
  type Sextet = v: int | 0 <= v < 64

  const Upper: string := "ABCDEFGHIJKLMNOPQRSTUVWXYZ"
  const Lower: string := "abcdefghijklmnopqrstuvwxyz"
  const Decimal: string := "0123456789"

  /** `keystr`: the character at index i encodes the 6-bit value i. It is
      written as its three runs plus `+/`, which spell the source's literal. */
  const Keystr: string := Upper + Lower + Decimal + "+/"

  // ---------------------------------------------------------------------------
  // Character classes

  /** The class `[ \t\n\f\r]` removed before decoding. */
  predicate IsWhitespace(c: char) {
    c == ' ' || c == '\t' || c == '\n' || c == '\U{000C}' || c == '\r'
  }

  /** The complement of the class `[^+/0-9A-Za-z]` that rejects the input. */
  predicate IsAlphabetChar(c: char) {
    ('A' <= c <= 'Z') || ('a' <= c <= 'z') || ('0' <= c <= '9') || c == '+' || c == '/'
  }

  predicate AllAlphabet(s: string) {
    forall i :: 0 <= i < |s| ==> IsAlphabetChar(s[i])
  }

  predicate NoWhitespace(s: string) {
    forall i :: 0 <= i < |s| ==> !IsWhitespace(s[i])
  }

  // ---------------------------------------------------------------------------
  // The alphabet and `atobLookup`

  /** The character encoding the 6-bit value `v`, by arithmetic on code points. */
  function Digit(v: Sextet): (c: char)
    ensures IsAlphabetChar(c)
  {
    if v < 26 then ('A' as int + v) as char
    else if v < 52 then ('a' as int + (v - 26)) as char
    else if v < 62 then ('0' as int + (v - 52)) as char
    else if v == 62 then '+'
    else '/'
  }

  /** The 6-bit value an alphabet character encodes; the inverse of `Digit`. */
  function SextetOf(c: char): (v: Sextet)
    requires IsAlphabetChar(c)
    ensures Digit(v) == c
  {
    if 'A' <= c <= 'Z' then c as int - 'A' as int
    else if 'a' <= c <= 'z' then c as int - 'a' as int + 26
    else if '0' <= c <= '9' then c as int - '0' as int + 52
    else if c == '+' then 62
    else 63
  }

  lemma DigitInjective(v: Sextet, w: Sextet)
    requires Digit(v) == Digit(w)
    ensures v == w
  {
  }

  lemma UpperAt(i: nat)
    requires i < 26
    ensures Upper[i] == ('A' as int + i) as char
  {
  }

  lemma LowerAt(i: nat)
    requires i < 26
    ensures Lower[i] == ('a' as int + i) as char
  {
  }

  lemma DecimalAt(i: nat)
    requires i < 10
    ensures Decimal[i] == ('0' as int + i) as char
  {
  }

  /** `keystr` lists the alphabet in value order. */
  lemma KeystrAt(v: Sextet)
    ensures |Keystr| == 64
    ensures Keystr[v] == Digit(v)
  {
    if v < 26 {
      UpperAt(v);
    } else if v < 52 {
      LowerAt(v - 26);
    } else if v < 62 {
      DecimalAt(v - 52);
    }
  }

  /** `String.prototype.indexOf` for a one-character needle: the first
      position holding `c`, or -1. */
  function IndexOf(s: string, c: char): (r: int)
    ensures -1 <= r < |s|
    ensures r >= 0 ==> s[r] == c && forall j :: 0 <= j < r ==> s[j] != c
    ensures r == -1 <==> c !in s
  {
    if s == [] then -1
    else if s[0] == c then 0
    else
      var k := IndexOf(s[1..], c);
      assert c in s[1..] ==> c in s;
      assert c in s && c != s[0] ==> c in s[1..] by {
        if c in s && c != s[0] {
          var j :| 0 <= j < |s| && s[j] == c;
          assert s[1..][j - 1] == c;
        }
      }
      if k < 0 then -1 else k + 1
  }

  /** `atobLookup`: the value of an alphabet character, `undefined` otherwise. */
  function Lookup(c: char): (r: Option<Sextet>)
    ensures r.Some? <==> IsAlphabetChar(c)
    ensures r.Some? ==> r.value == SextetOf(c) && Digit(r.value) == c
  {
    var index := IndexOf(Keystr, c);
    KeystrIndex(c);
    if index < 0 then None else Some(index)
  }

  /** `keystr` holds exactly the alphabet characters, each once, so its
      `indexOf` is the character's value. */
  lemma KeystrIndex(c: char)
    ensures |Keystr| == 64
    ensures IndexOf(Keystr, c) >= 0 <==> IsAlphabetChar(c)
    ensures IndexOf(Keystr, c) >= 0 ==> IndexOf(Keystr, c) == SextetOf(c)
  {
    KeystrAt(0);
    var index := IndexOf(Keystr, c);
    if IsAlphabetChar(c) {
      KeystrAt(SextetOf(c));
      assert c in Keystr;
    }
    if index >= 0 {
      KeystrAt(index);
      DigitInjective(index, SextetOf(c));
    }
  }

  // ---------------------------------------------------------------------------
  // Input preparation

  /** `data.replace(/[ \t\n\f\r]/g, "")` */
  function StripWhitespace(s: string): (r: string)
    ensures |r| <= |s|
    ensures NoWhitespace(r)
  {
    if s == [] then []
    else
      var rest := StripWhitespace(s[1..]);
      if IsWhitespace(s[0]) then rest else [s[0]] + rest
  }

  /** `data.replace(/==?$/, "")`: one or two `=` at the very end are removed. */
  function TrimPadding(s: string): (r: string)
    ensures |r| <= |s| && r == s[..|r|]
    ensures |s| - 2 <= |r|
    ensures forall i :: |r| <= i < |s| ==> s[i] == '='
    ensures |r| > 0 && |r| < |s| ==> |s| - |r| == 2 || s[|r| - 1] != '='
    ensures |r| == |s| ==> |s| == 0 || s[|s| - 1] != '='
  {
    if |s| >= 2 && s[|s| - 2] == '=' && s[|s| - 1] == '=' then s[..|s| - 2]
    else if |s| >= 1 && s[|s| - 1] == '=' then s[..|s| - 1]
    else s
  }

  /** Padding removal, applied only when the length is a multiple of four. */
  function DropPadding(s: string): string {
    if |s| % 4 == 0 then TrimPadding(s) else s
  }

  /** The text `atobJS` validates and decodes. */
  function Prepared(data: string): string {
    DropPadding(StripWhitespace(data))
  }

  /** The validity test: `data.length % 4 === 1` or a character outside
      `[+/0-9A-Za-z]` throws. */
  predicate Accepts(d: string) {
    |d| % 4 != 1 && AllAlphabet(d)
  }

  // ---------------------------------------------------------------------------
  // Bit accumulation

  /** The value of the digits `v[lo..hi]`, most significant first: what the
      loop's `buffer <<= 6; buffer |= value` steps accumulate. */
  function PackRange(v: seq<Sextet>, lo: nat, hi: nat): nat
    requires lo <= hi <= |v|
    decreases hi - lo
  {
    if hi == lo then 0 else PackRange(v, lo, hi - 1) * 64 + v[hi - 1]
  }

  /** `& 0xff` applied to a shifted buffer. */
  function Octet(x: nat): Byte {
    x % 0x100
  }

  /** `String.fromCharCode` of a byte. */
  function ByteChar(b: Byte): char {
    b as char
  }

  /** The three characters flushed from a complete 24-bit buffer:
      `(buffer & 0xff0000) >> 16`, `(buffer & 0xff00) >> 8`, `buffer & 0xff`. */
  function GroupChars(buffer: nat): string {
    [ByteChar(Octet(buffer / 0x1_0000)), ByteChar(Octet(buffer / 0x100)), ByteChar(Octet(buffer))]
  }

  /** The characters of the first `groups` complete groups of four digits. */
  function DecodeGroups(v: seq<Sextet>, groups: nat): string
    requires 4 * groups <= |v|
  {
    if groups == 0 then []
    else DecodeGroups(v, groups - 1) + GroupChars(PackRange(v, 4 * groups - 4, 4 * groups))
  }

  /** The characters after the loop for the digits from `start` on: one from
      12 accumulated bits (`buffer >>= 4`), two from 18 (`buffer >>= 2`),
      none otherwise. */
  function TailChars(v: seq<Sextet>, start: nat): string
    requires start <= |v| < start + 4
  {
    var buffer := PackRange(v, start, |v|);
    if |v| - start == 2 then [ByteChar(Octet(buffer / 16))]
    else if |v| - start == 3 then [ByteChar(Octet(buffer / 4 / 0x100)), ByteChar(Octet(buffer / 4))]
    else []
  }

  /** Decoding of a sequence of 6-bit values: its complete groups, then its tail. */
  function DecodeSextets(v: seq<Sextet>): string {
    DecodeGroups(v, |v| / 4) + TailChars(v, 4 * (|v| / 4))
  }

  /** `atobLookup` as used by `buffer |= atobLookup(c)`: `undefined` acts as 0. */
  function Value(c: char): Sextet {
    Lookup(c).GetOr(0)
  }

  /** The 6-bit values of the characters, `atobLookup(data[i])` in order.
      An absent value behaves as 0 in `buffer |= undefined`; validation
      ensures it never happens. */
  function Sextets(d: string): (v: seq<Sextet>)
    ensures |v| == |d|
  {
    seq(|d|, i requires 0 <= i < |d| => Value(d[i]))
  }

  // ---------------------------------------------------------------------------
  // The decoder

  /** `atobJS` as a function of its argument. */
  function Decode(data: string): Result<string, DecodeError> {
    var d := Prepared(data);
    if !Accepts(d) then Failure(InvalidInput)
    else Success(DecodeSextets(Sextets(d)))
  }

  /** `atobJS` with its accumulation loop, followed by the tail handling. */
  method AtobJS(data: string) returns (r: Result<string, DecodeError>)
    ensures r == Decode(data)
  {
    var d := StripWhitespace(data);
    if |d| % 4 == 0 {
      d := TrimPadding(d);
    }
    if |d| % 4 == 1 || !AllAlphabet(d) {
      return Failure(InvalidInput);
    }
    var acc := Accumulate(d);
    return Success(Finish(acc));
  }

  /** The loop state of `atobJS`: the text so far, the pending bits and
      how many of them there are. */
  datatype Accumulator = Accumulator(output: string, buffer: nat, accumulatedBits: nat)

  const Start := Accumulator([], 0, 0)

  /** One iteration: shift in six bits, and once 24 have accumulated flush
      them as three characters and start over. */
  function Push(a: Accumulator, value: Sextet): Accumulator {
    var buffer := a.buffer * 64 + value;
    var bits := a.accumulatedBits + 6;
    if bits == 24 then Accumulator(a.output + GroupChars(buffer), 0, 0)
    else Accumulator(a.output, buffer, bits)
  }

  /** After the loop: 12 pending bits give one character (`buffer >>= 4`),
      18 give two (`buffer >>= 2`), anything else none. */
  function Finish(a: Accumulator): string {
    if a.accumulatedBits == 12 then a.output + [ByteChar(Octet(a.buffer / 16))]
    else if a.accumulatedBits == 18 then
      a.output + [ByteChar(Octet(a.buffer / 4 / 0x100)), ByteChar(Octet(a.buffer / 4))]
    else a.output
  }

  /** The loop state after the first `n` digits. */
  function Fold(v: seq<Sextet>, n: nat): Accumulator
    requires n <= |v|
  {
    if n == 0 then Start else Push(Fold(v, n - 1), v[n - 1])
  }

  /** The `for` loop of `atobJS`: one `Push` per character. Its final
      state, once the tail is handled, is the group-by-group decoding of
      the characters' values. */
  method Accumulate(d: string) returns (acc: Accumulator)
    ensures acc == Fold(Sextets(d), |d|)
    ensures Finish(acc) == DecodeSextets(Sextets(d))
  {
    ghost var v := Sextets(d);
    acc := Start;
    var i := 0;
    while i < |d|
      invariant i <= |d|
      invariant acc == Fold(v, i)
    {
      assert v[i] == Value(d[i]);
      acc := Push(acc, Value(d[i]));
      i := i + 1;
    }
    FinishMatchesGroups(v);
  }

  /** After `4 * groups + rest` digits the loop has flushed exactly the
      first `groups` groups and holds the remaining `rest` digits, six bits
      each, in its buffer. */
  lemma {:induction false} FoldState(v: seq<Sextet>, groups: nat, rest: nat)
    requires rest < 4 && 4 * groups + rest <= |v|
    ensures Fold(v, 4 * groups + rest)
         == Accumulator(DecodeGroups(v, groups), PackRange(v, 4 * groups, 4 * groups + rest), 6 * rest)
    decreases groups, rest
  {
    if rest > 0 {
      FoldState(v, groups, rest - 1);
    } else if groups > 0 {
      FoldState(v, groups - 1, 3);
    }
  }

  /** The loop followed by the tail handling computes the group-wise
      decoding. */
  lemma FinishMatchesGroups(v: seq<Sextet>)
    ensures Finish(Fold(v, |v|)) == DecodeSextets(v)
  {
    var groups := |v| / 4;
    FoldState(v, groups, |v| - 4 * groups);
  }

  /** The pending buffer never holds more than three digits, so the next
      `buffer <<= 6; buffer |= value` stays below 2^24: JavaScript's 32-bit
      shift never overflows and the buffer can be an unbounded `nat`. */
  lemma BufferBound(v: seq<Sextet>, n: nat)
    requires n <= |v|
    ensures Fold(v, n).buffer < 0x4_0000
    ensures Fold(v, n).buffer * 64 + 63 < 0x100_0000
  {
    var groups := n / 4;
    var k := 4 * groups;
    FoldState(v, groups, n - k);
    if n - k == 1 {
      assert PackRange(v, k, k + 1) == v[k];
    } else if n - k == 2 {
      PackTwo(v, k);
    } else if n - k == 3 {
      PackThree(v, k);
    }
  }

  // ---------------------------------------------------------------------------
  // Shape of the output

  /** Output length for `n` prepared characters: three per full group of four,
      then one for a 2-character tail and two for a 3-character tail. */
  function DecodedLength(n: nat): nat {
    3 * (n / 4) + (if n % 4 == 2 then 1 else if n % 4 == 3 then 2 else 0)
  }

  predicate IsByteString(s: string) {
    forall i :: 0 <= i < |s| ==> s[i] as int < 0x100
  }

  lemma {:induction false} DecodeGroupsShape(v: seq<Sextet>, groups: nat)
    requires 4 * groups <= |v|
    ensures |DecodeGroups(v, groups)| == 3 * groups
    ensures IsByteString(DecodeGroups(v, groups))
  {
    if groups > 0 {
      DecodeGroupsShape(v, groups - 1);
    }
  }

  /** A successful decode yields three characters per group of four prepared
      characters, plus one or two for a tail of two or three, each a byte. */
  lemma DecodeOutput(data: string)
    requires Decode(data).Success?
    ensures |Decode(data).value| == DecodedLength(|Prepared(data)|)
    ensures IsByteString(Decode(data).value)
  {
    var v := Sextets(Prepared(data));
    DecodeGroupsShape(v, |v| / 4);
  }

  // ---------------------------------------------------------------------------
  // Whitespace

  /** Whitespace removal distributes over concatenation. */
  lemma {:induction false} StripAppend(a: string, b: string)
    ensures StripWhitespace(a + b) == StripWhitespace(a) + StripWhitespace(b)
    decreases |a|
  {
    if a != [] {
      assert (a + b)[0] == a[0];
      assert (a + b)[1..] == a[1..] + b;
      StripAppend(a[1..], b);
    } else {
      assert a + b == b;
    }
  }

  lemma {:induction false} StripIdentity(s: string)
    requires NoWhitespace(s)
    ensures StripWhitespace(s) == s
    decreases |s|
  {
    if s != [] {
      StripIdentity(s[1..]);
    }
  }

  lemma {:induction false} StripAllWhitespace(w: string)
    requires forall i :: 0 <= i < |w| ==> IsWhitespace(w[i])
    ensures StripWhitespace(w) == []
    decreases |w|
  {
    if w != [] {
      StripAllWhitespace(w[1..]);
    }
  }

  lemma StripInsert(a: string, w: string, b: string)
    requires forall i :: 0 <= i < |w| ==> IsWhitespace(w[i])
    ensures StripWhitespace(a + w + b) == StripWhitespace(a + b)
  {
    StripAppend(a + w, b);
    StripAppend(a, w);
    StripAppend(a, b);
    StripAllWhitespace(w);
    assert StripWhitespace(a + w) == StripWhitespace(a);
  }

  /** Inserting spaces, tabs, line feeds, form feeds or carriage returns
      anywhere changes neither the decoded text nor whether decoding fails. */
  lemma WhitespaceIrrelevant(a: string, w: string, b: string)
    requires forall i :: 0 <= i < |w| ==> IsWhitespace(w[i])
    ensures Decode(a + w + b) == Decode(a + b)
  {
    StripInsert(a, w, b);
  }

  // ---------------------------------------------------------------------------
  // Which inputs are accepted

  /** The independent description of an acceptable whitespace-free input:
      alphabet characters whose count is not one more than a multiple of
      four, followed by `n` (at most two) `=` that are only allowed when the
      whole length is a multiple of four. */
  predicate PaddedAs(s: string, n: nat)
    requires n <= |s|
  {
    && (forall i :: |s| - n <= i < |s| ==> s[i] == '=')
    && AllAlphabet(s[..|s| - n])
    && (|s| - n) % 4 != 1
    && (n > 0 ==> |s| % 4 == 0)
  }

  predicate WellFormed(s: string) {
    exists n: nat :: n <= 2 && n <= |s| && PaddedAs(s, n)
  }

  lemma AcceptedIsWellFormed(s: string)
    requires Accepts(DropPadding(s))
    ensures WellFormed(s)
  {
    var d := DropPadding(s);
    assert PaddedAs(s, |s| - |d|);
  }

  lemma WellFormedIsAccepted(s: string, n: nat)
    requires n <= 2 && n <= |s| && PaddedAs(s, n)
    ensures Accepts(DropPadding(s))
  {
    var d := DropPadding(s);
    if n == 0 {
      assert s[..|s|] == s;
      if |s| > 0 {
        assert IsAlphabetChar(s[|s| - 1]);
      }
      assert d == s;
    } else if n == 1 {
      assert s[..|s| - 1][|s| - 2] == s[|s| - 2];
      assert d == s[..|s| - 1];
    } else {
      assert d == s[..|s| - 2];
    }
  }

  /** Decoding fails exactly on inputs that, once whitespace is removed, do
      not have the shape alphabet characters followed by optional padding. */
  lemma DecodeSucceedsIff(data: string)
    ensures Decode(data).Success? <==> WellFormed(StripWhitespace(data))
  {
    var s := StripWhitespace(data);
    if Accepts(DropPadding(s)) {
      AcceptedIsWellFormed(s);
    }
    if WellFormed(s) {
      var n: nat :| n <= 2 && n <= |s| && PaddedAs(s, n);
      WellFormedIsAccepted(s, n);
    }
  }

  /** A `=` is accepted only among the last two characters of an input whose
      whitespace-free length is a multiple of four. */
  lemma PaddingOnlyAtEnd(data: string, i: int)
    requires Decode(data).Success?
    requires 0 <= i < |StripWhitespace(data)| && StripWhitespace(data)[i] == '='
    ensures |StripWhitespace(data)| % 4 == 0
    ensures i >= |StripWhitespace(data)| - 2
  {
    var s := StripWhitespace(data);
    var d := Prepared(data);
    assert |d| <= |s| && d == s[..|d|] && |s| - 2 <= |d|;
    assert |s| % 4 != 0 ==> d == s;
    forall j | 0 <= j < |d|
      ensures s[j] != '='
    {
      assert s[j] == d[j];
      assert IsAlphabetChar(d[j]);
    }
  }

  // ---------------------------------------------------------------------------
  // Discarded bits of a final partial group

  /** Equal digits below `hi` pack to equal values. */
  lemma {:induction false} PackRangeAgree(v: seq<Sextet>, w: seq<Sextet>, lo: nat, hi: nat)
    requires lo <= hi <= |v| && hi <= |w|
    requires forall j :: lo <= j < hi ==> v[j] == w[j]
    ensures PackRange(v, lo, hi) == PackRange(w, lo, hi)
    decreases hi - lo
  {
    if hi > lo {
      PackRangeAgree(v, w, lo, hi - 1);
    }
  }

  /** Complete groups decode from their own digits only. */
  lemma {:induction false} DecodeGroupsAgree(v: seq<Sextet>, w: seq<Sextet>, groups: nat)
    requires 4 * groups <= |v| && 4 * groups <= |w|
    requires forall j :: 0 <= j < 4 * groups ==> v[j] == w[j]
    ensures DecodeGroups(v, groups) == DecodeGroups(w, groups)
  {
    if groups > 0 {
      DecodeGroupsAgree(v, w, groups - 1);
      PackRangeAgree(v, w, 4 * groups - 4, 4 * groups);
    }
  }

  /** In a final group of two characters only the top two bits of the second
      one are used: its four low bits are discarded. */
  lemma TailTwoIgnoresLowBits(v: seq<Sextet>, b: Sextet)
    requires |v| % 4 == 2
    requires b / 16 == v[|v| - 1] / 16
    ensures DecodeSextets(v[|v| - 1 := b]) == DecodeSextets(v)
  {
    var w := v[|v| - 1 := b];
    var groups := |v| / 4;
    var k := 4 * groups;
    assert |v| == k + 2 && |w| / 4 == groups;
    DecodeGroupsAgree(v, w, groups);
    TailTwoValue(v, k);
    TailTwoValue(w, k);
    assert w[k] == v[k];
  }

  /** In a final group of three characters the two low bits of the third one
      are discarded. */
  lemma TailThreeIgnoresLowBits(v: seq<Sextet>, c: Sextet)
    requires |v| % 4 == 3
    requires c / 4 == v[|v| - 1] / 4
    ensures DecodeSextets(v[|v| - 1 := c]) == DecodeSextets(v)
  {
    var w := v[|v| - 1 := c];
    var groups := |v| / 4;
    var k := 4 * groups;
    assert |v| == k + 3 && |w| / 4 == groups;
    DecodeGroupsAgree(v, w, groups);
    TailThreeValue(v, k);
    TailThreeValue(w, k);
    assert w[k] == v[k] && w[k + 1] == v[k + 1];
  }

  /** The byte a two-digit tail yields: the first digit and the top two bits
      of the second. */
  lemma TailTwoValue(v: seq<Sextet>, k: nat)
    requires k + 2 == |v|
    ensures TailChars(v, k) == [ByteChar(Octet(4 * (v[k] as int) + v[k + 1] / 16))]
  {
    PackTwo(v, k);
  }

  /** The 16 bits a three-digit tail yields: the first two digits and the top
      four bits of the third. */
  lemma TailThreeValue(v: seq<Sextet>, k: nat)
    requires k + 3 == |v|
    ensures var x := 1024 * (v[k] as int) + 16 * (v[k + 1] as int) + v[k + 2] / 4;
            TailChars(v, k) == [ByteChar(Octet(x / 0x100)), ByteChar(Octet(x))]
  {
    PackThree(v, k);
  }

  lemma PackTwo(v: seq<Sextet>, k: nat)
    requires k + 2 <= |v|
    ensures PackRange(v, k, k + 2) == 64 * (v[k] as int) + v[k + 1]
  {
    assert PackRange(v, k, k + 1) == v[k];
  }

  lemma PackThree(v: seq<Sextet>, k: nat)
    requires k + 3 <= |v|
    ensures PackRange(v, k, k + 3) == 4096 * (v[k] as int) + 64 * (v[k + 1] as int) + v[k + 2]
  {
    PackTwo(v, k);
  }

  lemma PackFour(v: seq<Sextet>, k: nat)
    requires k + 4 <= |v|
    ensures PackRange(v, k, k + 4)
         == 262144 * (v[k] as int) + 4096 * (v[k + 1] as int) + 64 * (v[k + 2] as int) + v[k + 3]
  {
    PackThree(v, k);
  }

  // ---------------------------------------------------------------------------
  // A reference encoder and the round trip

  /** The text whose code units are the bytes `bs`. */
  function Latin1(bs: seq<Byte>): (s: string)
    ensures |s| == |bs|
  {
    seq(|bs|, i requires 0 <= i < |bs| => ByteChar(bs[i]))
  }

  /** Section 4 of RFC 4648: three bytes, most significant bit first, become
      four 6-bit values. */
  function GroupSextets(b0: Byte, b1: Byte, b2: Byte): seq<Sextet> {
    [b0 / 4, (b0 % 4) * 16 + b1 / 16, (b1 % 16) * 4 + b2 / 64, b2 % 64]
  }

  /** The 6-bit values of the first `groups` complete groups of three bytes. */
  function EncodeGroups(bs: seq<Byte>, groups: nat): (u: seq<Sextet>)
    requires 3 * groups <= |bs|
    ensures |u| == 4 * groups
  {
    if groups == 0 then []
    else EncodeGroups(bs, groups - 1) + GroupSextets(bs[3 * groups - 3], bs[3 * groups - 2], bs[3 * groups - 1])
  }

  /** A final one or two bytes: zero bits complete the last 6-bit value. */
  function TailSextets(bs: seq<Byte>, start: nat): seq<Sextet>
    requires start <= |bs| < start + 3
  {
    if |bs| - start == 1 then [bs[start] / 4, (bs[start] % 4) * 16]
    else if |bs| - start == 2 then
      [bs[start] / 4, (bs[start] % 4) * 16 + bs[start + 1] / 16, (bs[start + 1] % 16) * 4]
    else []
  }

  function EncodeSextets(bs: seq<Byte>): seq<Sextet> {
    EncodeGroups(bs, |bs| / 3) + TailSextets(bs, 3 * (|bs| / 3))
  }

  function Digits(u: seq<Sextet>): (s: string)
    ensures |s| == |u|
  {
    seq(|u|, i requires 0 <= i < |u| => Digit(u[i]))
  }

  /** The `=` that complete `n` digits to a multiple of four. */
  function Padding(n: nat): string {
    if n % 4 == 2 then "==" else if n % 4 == 3 then "=" else ""
  }

  /** Canonical padded base64 of `bs`. */
  function Encode(bs: seq<Byte>): string {
    var u := EncodeSextets(bs);
    Digits(u) + Padding(|u|)
  }

  /** Looking up the digit of a value gives the value back. */
  lemma SextetsOfDigits(u: seq<Sextet>)
    ensures Sextets(Digits(u)) == u
  {
    var d := Digits(u);
    forall i | 0 <= i < |u|
      ensures Sextets(d)[i] == u[i]
    {
      var r := Lookup(d[i]);
      DigitInjective(r.value, u[i]);
    }
  }

  /** The text a canonical digit string followed by its padding prepares to. */
  lemma PreparedCanonical(u: seq<Sextet>)
    requires |u| % 4 != 1
    ensures Prepared(Digits(u) + Padding(|u|)) == Digits(u)
  {
    var d := Digits(u);
    var s := d + Padding(|u|);
    forall i | 0 <= i < |s|
      ensures !IsWhitespace(s[i])
    {
      if i < |d| {
        assert IsAlphabetChar(d[i]);
      }
    }
    StripIdentity(s);
    assert |s| % 4 == 0;
    if |u| % 4 == 2 {
      assert s[..|s| - 2] == d;
    } else if |u| % 4 == 3 {
      assert s[..|s| - 1] == d;
      assert IsAlphabetChar(s[|s| - 2]);
    } else {
      assert s == d;
      if |s| > 0 {
        assert IsAlphabetChar(s[|s| - 1]);
      }
    }
  }

  /** A canonical digit string with its padding decodes to the decoding of
      its digits. */
  lemma DecodeCanonical(u: seq<Sextet>)
    requires |u| % 4 != 1
    ensures Decode(Digits(u) + Padding(|u|)) == Success(DecodeSextets(u))
  {
    PreparedCanonical(u);
    SextetsOfDigits(u);
  }

  /** Three bytes survive the trip through four 6-bit values, wherever
      those stand in `u`. */
  lemma GroupRoundTrip(u: seq<Sextet>, k: nat, bs: seq<Byte>, j: nat)
    requires k + 4 <= |u| && j + 3 <= |bs|
    requires u[k..k + 4] == GroupSextets(bs[j], bs[j + 1], bs[j + 2])
    ensures GroupChars(PackRange(u, k, k + 4)) == Latin1(bs[j..j + 3])
  {
    var b0: int, b1: int, b2: int := bs[j], bs[j + 1], bs[j + 2];
    var g := GroupSextets(b0, b1, b2);
    assert u[k] == g[0] && u[k + 1] == g[1] && u[k + 2] == g[2] && u[k + 3] == g[3];
    PackFour(u, k);
    var x := PackRange(u, k, k + 4);
    assert x == 65536 * b0 + 256 * b1 + b2;
    JsNumber.DivUnique(x, 0x1_0000, b0, 256 * b1 + b2);
    JsNumber.DivUnique(x, 0x100, 256 * b0 + b1, b2);
    JsNumber.DivUnique(256 * b0 + b1, 0x100, b0, b1);
  }

  lemma Latin1Split(bs: seq<Byte>, k: nat, m: nat)
    requires k <= m <= |bs|
    ensures Latin1(bs[..m]) == Latin1(bs[..k]) + Latin1(bs[k..m])
  {
  }

  /** The last group's values follow those of the groups before it. */
  lemma EncodeGroupsLast(bs: seq<Byte>, groups: nat)
    requires 0 < groups && 3 * groups <= |bs|
    ensures var e := EncodeGroups(bs, groups);
      && e[..4 * groups - 4] == EncodeGroups(bs, groups - 1)
      && e[4 * groups - 4..4 * groups] == GroupSextets(bs[3 * groups - 3], bs[3 * groups - 2], bs[3 * groups - 1])
  {
  }

  /** One more group of three bytes adds their three code units. */
  lemma GroupsStep(bs: seq<Byte>, groups: nat)
    requires 0 < groups && 3 * groups <= |bs|
    ensures DecodeGroups(EncodeGroups(bs, groups), groups)
         == DecodeGroups(EncodeGroups(bs, groups - 1), groups - 1) + Latin1(bs[3 * groups - 3..3 * groups])
  {
    var e := EncodeGroups(bs, groups);
    var lo := 4 * groups - 4;
    EncodeGroupsLast(bs, groups);
    DecodeGroupsAgree(e, EncodeGroups(bs, groups - 1), groups - 1);
    GroupRoundTrip(e, lo, bs, 3 * groups - 3);
    assert DecodeGroups(e, groups) == DecodeGroups(e, groups - 1) + GroupChars(PackRange(e, lo, lo + 4));
  }

  /** Complete groups decode to the bytes they encode. */
  lemma {:induction false} GroupsRoundTrip(bs: seq<Byte>, groups: nat)
    requires 3 * groups <= |bs|
    ensures DecodeGroups(EncodeGroups(bs, groups), groups) == Latin1(bs[..3 * groups])
  {
    if groups > 0 {
      GroupsRoundTrip(bs, groups - 1);
      GroupsStep(bs, groups);
      Latin1Split(bs, 3 * groups - 3, 3 * groups);
    }
  }

  /** A final one or two bytes decode from the two or three 6-bit values
      they encode to. */
  lemma TailRoundTrip(bs: seq<Byte>, u: seq<Sextet>, start: nat, k: nat)
    requires start <= |bs| < start + 3
    requires k + |TailSextets(bs, start)| == |u|
    requires u[k..] == TailSextets(bs, start)
    ensures TailChars(u, k) == Latin1(bs[start..])
  {
    var t := TailSextets(bs, start);
    assert forall i :: 0 <= i < |t| ==> u[k + i] == t[i];
    if |bs| - start == 1 {
      TailOneByte(bs[start], u, k);
    } else if |bs| - start == 2 {
      TailTwoBytes(bs[start], bs[start + 1], u, k);
    }
  }

  lemma TailOneByte(b0: Byte, u: seq<Sextet>, k: nat)
    requires k + 2 == |u|
    requires u[k] == b0 / 4 && u[k + 1] == (b0 % 4) * 16
    ensures TailChars(u, k) == [ByteChar(b0)]
  {
    TailTwoValue(u, k);
    var a: int := b0;
    assert 4 * (a / 4) + ((a % 4) * 16) / 16 == a;
  }

  lemma TailTwoBytes(b0: Byte, b1: Byte, u: seq<Sextet>, k: nat)
    requires k + 3 == |u|
    requires u[k] == b0 / 4 && u[k + 1] == (b0 % 4) * 16 + b1 / 16 && u[k + 2] == (b1 % 16) * 4
    ensures TailChars(u, k) == [ByteChar(b0), ByteChar(b1)]
  {
    TailThreeValue(u, k);
    var a: int := b0;
    var b: int := b1;
    var x := 1024 * (a / 4) + 16 * ((a % 4) * 16 + b / 16) + ((b % 16) * 4) / 4;
    assert x == 256 * a + b;
    JsNumber.DivUnique(x, 0x100, a, b);
  }

  /** Decoding the 6-bit values of `bs` gives back `bs`, one code unit per
      byte. */
  lemma DecodeEncodeSextets(bs: seq<Byte>)
    ensures DecodeSextets(EncodeSextets(bs)) == Latin1(bs)
  {
    var groups := |bs| / 3;
    var start := 3 * groups;
    var e := EncodeGroups(bs, groups);
    var t := TailSextets(bs, start);
    var u := e + t;
    assert |u| / 4 == groups;
    GroupsRoundTrip(bs, groups);
    DecodeGroupsAgree(u, e, groups);
    assert u[4 * groups..] == t;
    TailRoundTrip(bs, u, start, 4 * groups);
    Latin1Split(bs, start, |bs|);
    assert bs[..|bs|] == bs;
  }

  /** Round trip: the canonical encoding of any byte sequence is accepted
      and decodes to those bytes. */
  lemma RoundTrip(bs: seq<Byte>)
    ensures Decode(Encode(bs)) == Success(Latin1(bs))
  {
    var u := EncodeSextets(bs);
    assert |u| % 4 != 1;
    DecodeCanonical(u);
    DecodeEncodeSextets(bs);
  }

  // ---------------------------------------------------------------------------
  // Worked examples

  /** The 6-bit values of the bytes of `Hello`. */
  lemma HelloSextets()
    ensures EncodeSextets([72, 101, 108, 108, 111]) == [18, 6, 21, 44, 27, 6, 60]
  {
    var bs: seq<Byte> := [72, 101, 108, 108, 111];
    assert EncodeGroups(bs, 1) == [18, 6, 21, 44];
    assert TailSextets(bs, 3) == [27, 6, 60];
  }

  lemma EncodeHello()
    ensures Encode([72, 101, 108, 108, 111]) == "SGVsbG8="
  {
    HelloSextets();
    var u: seq<Sextet> := [18, 6, 21, 44, 27, 6, 60];
    assert Digits(u) == "SGVsbG8";
    assert "SGVsbG8" + Padding(7) == "SGVsbG8=";
  }

  lemma DecodeHello()
    ensures Decode("SGVsbG8=") == Success("Hello")
  {
    var bs: seq<Byte> := [72, 101, 108, 108, 111];
    EncodeHello();
    RoundTrip(bs);
    HelloText();
  }

  lemma HelloText()
    ensures Latin1([72, 101, 108, 108, 111]) == "Hello"
  {
  }

  /** `QQ==` and `QR==` differ only in discarded low bits and both decode
      to `A`. */
  lemma DecodeDiscardsLowBits()
    ensures Decode("QQ==") == Success("A")
    ensures Decode("QR==") == Success("A")
  {
    var bs: seq<Byte> := [65];
    var u: seq<Sextet> := [16, 16];
    var u': seq<Sextet> := [16, 17];
    assert EncodeSextets(bs) == u;
    assert Digits(u) + Padding(2) == "QQ==" by {
      assert Digits(u) == "QQ";
    }
    assert Digits(u') + Padding(2) == "QR==" by {
      assert Digits(u') == "QR";
    }
    DecodeCanonical(u);
    DecodeCanonical(u');
    assert u'[1 := 16] == u;
    assert |u'| % 4 == 2 && 17 / 16 == 16 / 16;
    TailTwoIgnoresLowBits(u', 16);
    DecodeEncodeSextets(bs);
    assert Latin1(bs) == "A";
  }
}

=== FILE: client.dfy ===
/** The pure decision helpers of `src/client.ts`: which character type the
    selection wheel points at, how pressed keys and the on-screen joystick
    become movement controls, and how the wheel's angle follows its target.
    `PLAYER_TYPES.length` is the parameter `n`. */
module Client {
  import JsNumber

  /** Stick deflections at or below these leave the keyboard's value. */
  const DEAD_TURN_ZONE: real := 0.5
  const DEAD_MOVE_ZONE: real := 0.25

  /** How far `currentTarget` moves per frame. */
  const SELECT_MOVE: real := 0.05

  // ---------------------------------------------------------------------------
  // Selection

  /** `getSelectedPlayerType`: a negative `selectTarget` is first brought
      into range by adding `n` to its truncated remainder, then the
      truncated remainder by `n` is taken. The result is the Euclidean
      remainder, for negative targets and multiples of `n` alike. */
  function SelectedPlayerType(selectTarget: int, n: int): (r: int)
    requires n > 0
    ensures 0 <= r < n
    ensures r == selectTarget % n
  {
    var shifted := if selectTarget < 0 then n + JsNumber.Rem(selectTarget, n) else selectTarget;
    ShiftedRemainder(selectTarget, n);
    JsNumber.Rem(shifted, n)
  }

  lemma ShiftedRemainder(selectTarget: int, n: int)
    requires n > 0
    ensures var shifted := if selectTarget < 0 then n + JsNumber.Rem(selectTarget, n) else selectTarget;
            shifted >= 0 && shifted % n == selectTarget % n
  {
    if selectTarget < 0 {
      var shifted := n + JsNumber.Rem(selectTarget, n);
      if selectTarget % n == 0 {
        JsNumber.ModUnique(shifted, n, 1, 0);
      } else {
        JsNumber.ModUnique(shifted, n, 0, selectTarget % n);
      }
    }
  }

  /** Turning the wheel a full round selects the same type. */
  lemma SelectionPeriodic(selectTarget: int, n: int)
    requires n > 0
    ensures SelectedPlayerType(selectTarget + n, n) == SelectedPlayerType(selectTarget, n)
  {
    JsNumber.ModUnique(selectTarget + n, n, selectTarget / n + 1, selectTarget % n);
  }

  // ---------------------------------------------------------------------------
  // Controls

  /** The movement part of `controls`: `x` turns, `y` moves, `jump` is set
      elsewhere. */
  datatype Controls = Controls(x: int, y: int, jump: bool)

  /** The joystick deflection, each axis in [-1, 1] as the joystick reports it. */
  datatype Stick = Stick(x: real, y: real)

  /** `this.keys[k]`: an absent key reads as `undefined`, which is falsy. */
  predicate Pressed(keys: map<string, bool>, k: string) {
    k in keys && keys[k]
  }

  function Abs(a: real): real {
    if a < 0.0 then -a else a
  }

  /** `a < 0 ? -1 : 1` */
  function Sign(a: real): int {
    if a < 0.0 then -1 else 1
  }

  /** The axis values as priorities rather than as overwriting assignments:
      a stick beyond its dead zone wins, then the later key of the pair,
      then the earlier one. */
  function Turn(keys: map<string, bool>, stick: Stick): int {
    if Abs(stick.x) > DEAD_TURN_ZONE then Sign(stick.x)
    else if Pressed(keys, "d") then 1
    else if Pressed(keys, "a") then -1
    else 0
  }

  function Move(keys: map<string, bool>, stick: Stick): int {
    if Abs(stick.y) > DEAD_MOVE_ZONE then Sign(stick.y)
    else if Pressed(keys, "s") then -1
    else if Pressed(keys, "w") then 1
    else 0
  }

  /** `updateKeys`: both axes are reset, the keys `w`, `s`, `a`, `d` set
      them in that order, and a deflected stick overrides each axis beyond
      its dead zone. `jump` is left as it was. */
  method UpdateKeys(keys: map<string, bool>, stick: Stick, controls: Controls) returns (r: Controls)
    ensures r.jump == controls.jump
    ensures r.x == Turn(keys, stick) && r.y == Move(keys, stick)
    ensures -1 <= r.x <= 1 && -1 <= r.y <= 1
  {
    r := controls.(x := 0, y := 0);
    if Pressed(keys, "w") {
      r := r.(y := 1);
    }
    if Pressed(keys, "s") {
      r := r.(y := -1);
    }
    if Pressed(keys, "a") {
      r := r.(x := -1);
    }
    if Pressed(keys, "d") {
      r := r.(x := 1);
    }
    if stick.x != 0.0 || stick.y != 0.0 {
      if Abs(stick.y) > DEAD_MOVE_ZONE {
        r := r.(y := if stick.y < 0.0 then -1 else 1);
      }
      if Abs(stick.x) > DEAD_TURN_ZONE {
        r := r.(x := if stick.x < 0.0 then -1 else 1);
      }
    }
  }

  /** With nothing pressed and the stick centred the player stands still. */
  lemma IdleControls(keys: map<string, bool>)
    requires forall k :: k in keys ==> !keys[k]
    ensures Turn(keys, Stick(0.0, 0.0)) == 0 && Move(keys, Stick(0.0, 0.0)) == 0
  {
  }

  // ---------------------------------------------------------------------------
  // The selection wheel

  /** The `currentTarget` step of `updateTarget`: move `SELECT_MOVE` toward
      the target, stopping on it rather than passing it. */
  function StepTarget(current: real, target: real): (r: real)
    ensures Abs(r - current) <= SELECT_MOVE
    ensures current <= target ==> current <= r <= target
    ensures target <= current ==> target <= r <= current
    ensures r == target || Abs(r - current) == SELECT_MOVE
  {
    var up := if current < target then (if current + SELECT_MOVE > target then target else current + SELECT_MOVE)
              else current;
    if up > target then (if up - SELECT_MOVE < target then target else up - SELECT_MOVE)
    else up
  }

  /** `k` frames of `updateTarget`. */
  function Follow(current: real, target: real, k: nat): real
    decreases k
  {
    if k == 0 then current else Follow(StepTarget(current, target), target, k - 1)
  }

  /** The wheel reaches its target once the frames cover the distance, and
      stays there. */
  lemma {:induction false} FollowArrives(current: real, target: real, k: nat)
    requires Abs(target - current) <= k as real * SELECT_MOVE
    ensures Follow(current, target, k) == target
    decreases k
  {
    if k > 0 {
      FollowArrives(StepTarget(current, target), target, k - 1);
    }
  }
}

=== FILE: jsnumber.dfy ===
/** Integer arithmetic as JavaScript's `number` performs it on integral values. */
module JsNumber {

  function Abs(a: int): nat {
    if a < 0 then -a else a
  }

  /** JavaScript's `a % b` on integers: the remainder of division truncated
      toward zero, so it takes the sign of the dividend, where Dafny's `%`
      is Euclidean and never negative. The postconditions relate the two:
      they agree on a non-negative dividend, and on a negative one the
      truncated remainder is the Euclidean one shifted down by `|b|`
      unless that remainder is zero. */
  function Rem(a: int, b: int): (r: int)
    requires b != 0
    ensures Abs(r) < Abs(b)
    ensures a >= 0 ==> r == a % Abs(b)
    ensures a < 0 && a % Abs(b) == 0 ==> r == 0
    ensures a < 0 && a % Abs(b) != 0 ==> r == a % Abs(b) - Abs(b)
  {
    var m := Abs(b);
    if a >= 0 then a % m
    else
      var e := a % m;
      var q := a / m;
      assert -a == (-q) * m - e;
      if e == 0 then
        ModUnique(-a, m, -q, 0);
        0
      else
        assert -a == (-q - 1) * m + (m - e);
        ModUnique(-a, m, -q - 1, m - e);
        -((-a) % m)
  }

  /** Euclidean division is unique: a decomposition `x == q * m + r` with
      `0 <= r < m` fixes the remainder ... */
  lemma ModUnique(x: int, m: int, q: int, r: int)
    requires 0 <= r < m
    requires x == q * m + r
    ensures x % m == r
  {
    var q' := x / m;
    var r' := x % m;
    var k := q - q';
    assert k * m == r' - r;
    if k >= 1 {
      MulAtLeast(k, m);
    } else if k <= -1 {
      MulAtLeast(-k, m);
    }
  }

  /** ... and the quotient too. */
  lemma DivUnique(x: int, m: int, q: int, r: int)
    requires 0 <= r < m
    requires x == q * m + r
    ensures x / m == q && x % m == r
  {
    ModUnique(x, m, q, r);
  }

  lemma MulAtLeast(k: int, m: int)
    requires k >= 1 && m > 0
    ensures k * m >= m
  {
    assert k * m == (k - 1) * m + m;
    assert (k - 1) * m >= 0;
  }
}

=== FILE: logic.dfy ===
/** The authoritative game logic of `src/logic.ts`: the initial state, the
    per-tick update of moving platforms and players, and the `update`
    action a client sends. Each callback becomes a pure function from the
    old state to the new one; the SDK clock `Dusk.gameTime()` becomes the
    integer parameter `time`. The `number[]` triples `t`, `dir` and
    `velocity` are `Vec3`s. Numbers are reals, except a mover's `interval`,
    which is an integer. */
module Logic {
  import opened Results
  import opened Vectors
  import JsNumber

  const MOVE_SPEED: real := 0.1
  const UPDATES_PER_SECOND: int := 30
  const SEND_PER_SECOND: int := 10
  const FRAME_STEP: real := SEND_PER_SECOND as real / UPDATES_PER_SECOND as real
  const SEND_ACTION_INTERVAL: real := 1000.0 / SEND_PER_SECOND as real

  /** The vertical speed lost per tick while in the air, and the lowest
      vertical speed. */
  const GRAVITY_STEP: real := 0.05
  const MIN_VY: real := -0.5

  /** `MoveFunc`: the only motion kind is `"Z"`. */
  datatype MoveFunc = Z

  datatype NamedPoint = NamedPoint(moveFunc: MoveFunc, distance: real, interval: int, velocity: Vec3)

  /** `PlayerState`; the optional fields `on`, `dir` and `baseY` are
      `Option`s. */
  datatype PlayerState = PlayerState(
    id: string,
    q: seq<real>,
    t: Vec3,
    vy: real,
    moving: bool,
    onGround: bool,
    on: Option<string>,
    dir: Option<Vec3>,
    baseY: Option<real>)

  datatype GameState = GameState(actors: seq<PlayerState>, moving: map<string, NamedPoint>)

  const PLATFORM: string := "platform003"

  /** `setup`: no actors and the single platform `platform003`, at rest. */
  function Setup(): (g: GameState)
    ensures g.actors == []
    ensures g.moving.Keys == {PLATFORM}
    ensures g.moving[PLATFORM] == NamedPoint(Z, 0.1, 5000, Zero)
  {
    GameState([], map[PLATFORM := NamedPoint(Z, 0.1, 5000, Vec3(0.0, 0.0, 0.0))])
  }

  // ---------------------------------------------------------------------------
  // Moving platforms

  /** `(Dusk.gameTime() % mover.interval) / mover.interval` with JavaScript's
      truncating `%`; `None` stands for the `NaN` a zero interval gives. */
  function Phase(time: int, interval: int): (r: Option<real>)
    ensures r.None? <==> interval == 0
  {
    if interval == 0 then None
    else Some(JsNumber.Rem(time, interval) as real / interval as real)
  }

  /** The velocity `[0, 0, time < 0.5 ? distance : -distance]`; a `NaN`
      phase fails the comparison. */
  function MoverVelocity(mover: NamedPoint, time: int): (v: Vec3)
    ensures v.x == 0.0 && v.y == 0.0
    ensures v.z == mover.distance || v.z == -mover.distance
    ensures mover.interval == 0 ==> v.z == -mover.distance
  {
    var phase := Phase(time, mover.interval);
    Vec3(0.0, 0.0, if phase.Some? && phase.value < 0.5 then mover.distance else -mover.distance)
  }

  /** The first loop of `update`: every mover gets the velocity of the
      current time. */
  function UpdateMovers(moving: map<string, NamedPoint>, time: int): (r: map<string, NamedPoint>)
    ensures r.Keys == moving.Keys
    ensures forall k :: k in r ==> r[k] == moving[k].(velocity := MoverVelocity(moving[k], time))
  {
    map k | k in moving :: moving[k].(velocity := MoverVelocity(moving[k], time))
  }

  lemma RealHalf(a: real, b: real)
    requires b > 0.0
    ensures a / b < 0.5 <==> 2.0 * a < b
  {
    var q := a / b;
    assert a == q * b;
  }

  /** For a running clock and a positive interval the velocity is a square
      wave: `+distance` in the first half of each interval, `-distance` in
      the second. */
  lemma SquareWave(mover: NamedPoint, time: int)
    requires time >= 0 && mover.interval > 0
    ensures MoverVelocity(mover, time).z
         == if 2 * (time % mover.interval) < mover.interval then mover.distance else -mover.distance
  {
    var r := JsNumber.Rem(time, mover.interval);
    assert r == time % mover.interval;
    RealHalf(r as real, mover.interval as real);
  }

  /** The velocity repeats with the mover's interval. */
  lemma VelocityPeriodic(mover: NamedPoint, time: int)
    requires time >= 0 && mover.interval > 0
    ensures MoverVelocity(mover, time + mover.interval) == MoverVelocity(mover, time)
  {
    SquareWave(mover, time);
    SquareWave(mover, time + mover.interval);
    JsNumber.ModUnique(time + mover.interval, mover.interval, time / mover.interval + 1, time % mover.interval);
  }

  /** From `setup`, a tick at a running clock leaves no actors and sets the
      platform's velocity to `[0, 0, 0.1]` in the first half of every 5000
      time units and to `[0, 0, -0.1]` in the second. */
  lemma SetupFirstTick(time: int)
    requires time >= 0
    ensures Tick(Setup(), time).actors == []
    ensures Tick(Setup(), time).moving.Keys == {PLATFORM}
    ensures Tick(Setup(), time).moving[PLATFORM].velocity
         == Vec3(0.0, 0.0, if 2 * (time % 5000) < 5000 then 0.1 else -0.1)
  {
    SquareWave(Setup().moving[PLATFORM], time);
  }

  // ---------------------------------------------------------------------------
  // Players

  /** The distance `(dir[i] * MOVE_SPEED) * FRAME_STEP` walked along one
      axis in one tick. */
  function Stride(component: real): real {
    (component * MOVE_SPEED) * FRAME_STEP
  }

  /** The horizontal step `t[i] += Stride(dir[i])` for `i` 0 and 2;
      `dir[1]` is not used. */
  function Walk(t: Vec3, dir: Vec3): Vec3 {
    Vec3(t.x + Stride(dir.x), t.y, t.z + Stride(dir.z))
  }

  /** The velocity of the platform the player stands on: `on` must be a
      non-empty string (`if (actor.on)`) naming a mover. */
  function Carrier(on: Option<string>, moving: map<string, NamedPoint>): Option<NamedPoint> {
    if on.Some? && on.value != "" && on.value in moving then Some(moving[on.value]) else None
  }

  /** The platform's velocity added to the position, if there is one. */
  function Carry(t: Vec3, on: Option<string>, moving: map<string, NamedPoint>): Vec3 {
    var influence := Carrier(on, moving);
    if influence.Some? then Add(t, influence.value.velocity) else t
  }

  /** Whether the vertical step applies: a non-zero `vy` that keeps the
      player above `baseY ?? 0`. */
  predicate Airborne(t: Vec3, vy: real, baseY: Option<real>) {
    vy != 0.0 && t.y + vy > baseY.GetOr(0.0)
  }

  /** The vertical step: rise or fall by `vy`, then lose `GRAVITY_STEP` of
      it, never dropping below `MIN_VY`: the new speed is the larger of
      `vy - GRAVITY_STEP` and `MIN_VY`. */
  function Fall(t: Vec3, vy: real, baseY: Option<real>): (r: (Vec3, real))
    ensures Airborne(t, vy, baseY) ==> r.0 == t.(y := t.y + vy)
    ensures Airborne(t, vy, baseY) ==> r.1 >= MIN_VY && r.1 >= vy - GRAVITY_STEP
    ensures Airborne(t, vy, baseY) ==> r.1 == MIN_VY || r.1 == vy - GRAVITY_STEP
    ensures !Airborne(t, vy, baseY) ==> r == (t, vy)
  {
    if Airborne(t, vy, baseY) then
      var falling := vy - GRAVITY_STEP;
      (t.(y := t.y + vy), if falling < MIN_VY then MIN_VY else falling)
    else (t, vy)
  }

  /** One player's part of `update`: a player without `dir` is left alone;
      otherwise it walks, is carried, and rises or falls. Only `t` and `vy`
      change. */
  function StepActor(actor: PlayerState, moving: map<string, NamedPoint>): (r: PlayerState)
    ensures actor.dir.None? ==> r == actor
    ensures r == actor.(t := r.t, vy := r.vy)
  {
    if actor.dir.None? then actor
    else
      var walked := Walk(actor.t, actor.dir.value);
      var carried := Carry(walked, actor.on, moving);
      var fallen := Fall(carried, actor.vy, actor.baseY);
      actor.(t := fallen.0, vy := fallen.1)
  }

  /** `update`: the movers first, then every player against the movers'
      new velocities. */
  function Tick(game: GameState, time: int): (r: GameState)
    ensures |r.actors| == |game.actors|
    ensures r.moving.Keys == game.moving.Keys
    ensures r.moving == UpdateMovers(game.moving, time)
    ensures forall i :: 0 <= i < |r.actors| ==> r.actors[i] == StepActor(game.actors[i], r.moving)
  {
    var moving := UpdateMovers(game.moving, time);
    GameState(seq(|game.actors|, i requires 0 <= i < |game.actors| => StepActor(game.actors[i], moving)), moving)
  }

  /** The velocity of the platform under a player, zero if none. */
  function CarrierVelocity(on: Option<string>, moving: map<string, NamedPoint>): Vec3 {
    var influence := Carrier(on, moving);
    if influence.Some? then influence.value.velocity else Zero
  }

  /** The horizontal position of a moving player changes by `dir / 30`
      (`MOVE_SPEED * FRAME_STEP` is 1/30) plus the velocity of the platform
      under it; the height changes
      by the platform's vertical velocity and, when airborne, by `vy`. */
  lemma StepPosition(actor: PlayerState, moving: map<string, NamedPoint>)
    requires actor.dir.Some?
    ensures var r := StepActor(actor, moving);
            var d := actor.dir.value;
            var pv := CarrierVelocity(actor.on, moving);
            && r.t.x == actor.t.x + d.x / 30.0 + pv.x
            && r.t.z == actor.t.z + d.z / 30.0 + pv.z
            && r.t.y == actor.t.y + pv.y + (if Airborne(Add(actor.t, pv), actor.vy, actor.baseY) then actor.vy else 0.0)
  {
  }

  /** `dir[1]` has no effect on the step. */
  lemma StepIgnoresDirY(actor: PlayerState, moving: map<string, NamedPoint>, y: real)
    requires actor.dir.Some?
    ensures StepActor(actor.(dir := Some(actor.dir.value.(y := y))), moving).t == StepActor(actor, moving).t
    ensures StepActor(actor.(dir := Some(actor.dir.value.(y := y))), moving).vy == StepActor(actor, moving).vy
  {
  }

  /** A player standing on nothing known is not carried: an unset or empty
      `on`, or one naming no mover, adds nothing. */
  lemma UnknownPlatformAddsNothing(actor: PlayerState, moving: map<string, NamedPoint>)
    requires actor.dir.Some?
    requires actor.on.None? || actor.on.value == "" || actor.on.value !in moving
    ensures StepActor(actor, moving).t.x == actor.t.x + actor.dir.value.x / 30.0
    ensures StepActor(actor, moving).t.z == actor.t.z + actor.dir.value.z / 30.0
  {
  }

  /** Once at or above `MIN_VY`, `vy` stays there and does not grow during
      a tick. Below `MIN_VY` (a value only a client can send) an airborne
      step raises it to `MIN_VY`. */
  lemma StepVy(actor: PlayerState, moving: map<string, NamedPoint>)
    ensures actor.vy >= MIN_VY ==> MIN_VY <= StepActor(actor, moving).vy <= actor.vy
    ensures actor.vy < MIN_VY && actor.dir.Some? ==>
              StepActor(actor, moving).vy == actor.vy || StepActor(actor, moving).vy == MIN_VY
  {
  }

  /** The clock values of successive ticks. */
  function Ticks(game: GameState, times: seq<int>): GameState
    decreases |times|
  {
    if times == [] then game else Ticks(Tick(game, times[0]), times[1..])
  }

  /** Player ids, in order. */
  function Ids(actors: seq<PlayerState>): seq<string> {
    seq(|actors|, i requires 0 <= i < |actors| => actors[i].id)
  }

  predicate VyBounded(game: GameState) {
    forall i :: 0 <= i < |game.actors| ==> game.actors[i].vy >= MIN_VY
  }

  /** Ticks keep the players (same ids, same order) and the set of movers,
      whatever the players' vertical speeds. */
  lemma {:induction false} TicksKeepIds(game: GameState, times: seq<int>)
    ensures Ids(Ticks(game, times).actors) == Ids(game.actors)
    ensures Ticks(game, times).moving.Keys == game.moving.Keys
    decreases |times|
  {
    if times != [] {
      var next := Tick(game, times[0]);
      assert Ids(next.actors) == Ids(game.actors);
      TicksKeepIds(next, times[1..]);
    }
  }

  /** Ticks keep the lower bound on vertical speed. */
  lemma {:induction false} TicksInvariant(game: GameState, times: seq<int>)
    requires VyBounded(game)
    ensures VyBounded(Ticks(game, times))
    decreases |times|
  {
    if times != [] {
      var next := Tick(game, times[0]);
      forall i | 0 <= i < |next.actors|
        ensures next.actors[i].vy >= MIN_VY
      {
        StepVy(game.actors[i], next.moving);
      }
      TicksInvariant(next, times[1..]);
    }
  }

  /** A player standing on a mover rides with the velocity the same tick
      has just given that mover: movers are updated before players. */
  lemma TickRidesPlatform(game: GameState, time: int, i: int, k: string)
    requires 0 <= i < |game.actors|
    requires game.actors[i].dir.Some? && game.actors[i].on == Some(k)
    requires k != "" && k in game.moving
    ensures var a := game.actors[i];
            Tick(game, time).actors[i].t.z == a.t.z + a.dir.value.z / 30.0 + MoverVelocity(game.moving[k], time).z
  {
    StepPosition(game.actors[i], UpdateMovers(game.moving, time));
  }

  // ---------------------------------------------------------------------------
  // The `update` action

  /** `actors.find(actor => state.id === actor.id)`, as the index found. */
  function FindActor(actors: seq<PlayerState>, id: string): (r: Option<nat>)
    ensures r.Some? ==> r.value < |actors| && actors[r.value].id == id
    ensures r.Some? ==> forall j :: 0 <= j < r.value ==> actors[j].id != id
    ensures r.None? <==> forall j :: 0 <= j < |actors| ==> actors[j].id != id
  {
    if actors == [] then None
    else if actors[0].id == id then Some(0)
    else
      var rest := FindActor(actors[1..], id);
      assert forall j :: 1 <= j < |actors| ==> actors[j] == actors[1..][j - 1];
      if rest.None? then None else Some(rest.value + 1)
  }

  /** The player a first `update` creates: a copy of `state` with the
      caller's id and a zero `dir`. */
  function NewActor(state: PlayerState, playerId: string): PlayerState {
    state.(id := playerId, dir := Some(Zero))
  }

  /** The fields an `update` overwrites on a known player. */
  function Overwrite(actor: PlayerState, state: PlayerState): PlayerState {
    actor.(
      dir := Some(if state.moving then Sub(state.t, actor.t) else Zero),
      q := state.q,
      t := state.t,
      moving := state.moving,
      on := state.on,
      onGround := state.onGround,
      baseY := if state.onGround then Some(state.t.y) else actor.baseY,
      vy := state.vy)
  }

  /** `actions.update`: the player is looked up by `state.id`; if missing, a
      new one is appended under `playerId`, otherwise its fields are
      overwritten. The movers are not touched. */
  function Action(game: GameState, state: PlayerState, playerId: string): (r: GameState)
    ensures r.moving == game.moving
    ensures FindActor(game.actors, state.id).None? ==> r.actors == game.actors + [NewActor(state, playerId)]
    ensures FindActor(game.actors, state.id).Some? ==>
              var i := FindActor(game.actors, state.id).value;
              r.actors == game.actors[i := Overwrite(game.actors[i], state)]
  {
    var found := FindActor(game.actors, state.id);
    if found.None? then game.(actors := game.actors + [NewActor(state, playerId)])
    else game.(actors := game.actors[found.value := Overwrite(game.actors[found.value], state)])
  }

  /** A new player copies every field of `state` except its id and `dir`. */
  lemma NewActorCopies(state: PlayerState, playerId: string)
    ensures var a := NewActor(state, playerId);
            && a.id == playerId && a.dir == Some(Zero)
            && a.q == state.q && a.t == state.t && a.vy == state.vy && a.moving == state.moving
            && a.onGround == state.onGround && a.on == state.on && a.baseY == state.baseY
  {
  }

  /** On a known player: the count stays, `dir` is the displacement from the
      old position to the new one while moving (zero otherwise), `baseY`
      follows the new height only on the ground, and the id is kept. */
  lemma ActionOnKnown(game: GameState, state: PlayerState, playerId: string, i: nat)
    requires FindActor(game.actors, state.id) == Some(i)
    ensures var r := Action(game, state, playerId);
            var old_ := game.actors[i];
            && |r.actors| == |game.actors|
            && r.actors[i].id == old_.id == state.id
            && (state.moving ==> Add(old_.t, r.actors[i].dir.value) == state.t)
            && (!state.moving ==> r.actors[i].dir == Some(Zero))
            && (state.onGround ==> r.actors[i].baseY == Some(state.t.y))
            && (!state.onGround ==> r.actors[i].baseY == old_.baseY)
            && (forall j :: 0 <= j < |game.actors| && j != i ==> r.actors[j] == game.actors[j])
            && r.actors[i] == old_.(dir := r.actors[i].dir, baseY := r.actors[i].baseY,
                                    q := state.q, t := state.t, moving := state.moving,
                                    on := state.on, onGround := state.onGround, vy := state.vy)
  {
  }

  /** Sending one's own id twice creates the player once: the second call
      finds it. */
  lemma ActionTwiceOwnId(game: GameState, state: PlayerState, playerId: string)
    requires state.id == playerId
    ensures |Action(Action(game, state, playerId), state, playerId).actors|
         == |Action(game, state, playerId).actors|
    ensures |Action(game, state, playerId).actors| <= |game.actors| + 1
  {
    var once := Action(game, state, playerId);
    var found := FindActor(game.actors, state.id);
    if found.None? {
      assert once.actors[|game.actors|].id == state.id;
    } else {
      assert once.actors[found.value].id == state.id;
    }
  }

  /** The lookup uses `state.id` but the insertion `playerId`: when the two
      differ and no player has `state.id`, every call appends another
      player. */
  lemma ActionForeignIdAppends(game: GameState, state: PlayerState, playerId: string)
    requires state.id != playerId
    requires FindActor(game.actors, state.id).None?
    ensures |Action(Action(game, state, playerId), state, playerId).actors| == |game.actors| + 2
  {
    var once := Action(game, state, playerId);
    assert FindActor(once.actors, state.id).None?;
  }
}

=== FILE: physics.dfy ===
/** The body container of `src/simplephysics.ts`: a world holding an
    append-only list of boxes and cylinders that can be moved by a vector.
    There is no collision handling: `resolve` visits the dynamic bodies and
    does nothing with them. */
module Physics {
  import opened Vectors

  /** `ShapeType`: `CYLINDER` and `BOX`. */
  datatype ShapeType = Cylinder | Box

  datatype Body = Body(dynamic: bool, shape: ShapeType, id: int, center: Vec3, size: Vec3, angle: real)

  datatype World = World(bodies: seq<Body>, allowedStepSize: real, nextBodyId: int)

  /** `createWorld`: an empty world whose first id is 1. */
  function CreateWorld(allowedStepSize: real): (w: World)
    ensures w.bodies == []
    ensures w.allowedStepSize == allowedStepSize
    ensures w.nextBodyId == 1
  {
    World([], allowedStepSize, 1)
  }

  /** The common part of `createBox` and `createCylinder`: the new body takes
      `world.nextBodyId` as its id and is pushed onto `world.bodies`. The
      counter is read and never advanced. */
  function CreateBody(world: World, shape: ShapeType, center: Vec3, size: Vec3, angle: real, dynamic: bool)
    : (r: (World, Body))
    ensures r.0.bodies == world.bodies + [r.1]
    ensures r.0.allowedStepSize == world.allowedStepSize
    ensures r.0.nextBodyId == world.nextBodyId
    ensures r.1.id == world.nextBodyId
    ensures r.1.shape == shape && r.1.dynamic == dynamic
    ensures r.1.center == center && r.1.size == size && r.1.angle == angle
  {
    var body := Body(dynamic, shape, world.nextBodyId, center, size, angle);
    (world.(bodies := world.bodies + [body]), body)
  }

  /** `createBox`: the world with the box appended, and the box. */
  function CreateBox(world: World, center: Vec3, size: Vec3, angle: real, dynamic: bool): (r: (World, Body))
    ensures |r.0.bodies| == |world.bodies| + 1
    ensures r.0.bodies[..|world.bodies|] == world.bodies
    ensures r.0.bodies[|world.bodies|] == r.1
    ensures r.1 == Body(dynamic, Box, world.nextBodyId, center, size, angle)
    ensures r.0.allowedStepSize == world.allowedStepSize && r.0.nextBodyId == world.nextBodyId
  {
    CreateBody(world, Box, center, size, angle, dynamic)
  }

  /** `createCylinder`: as `createBox` with the cylinder shape. */
  function CreateCylinder(world: World, center: Vec3, size: Vec3, angle: real, dynamic: bool): (r: (World, Body))
    ensures |r.0.bodies| == |world.bodies| + 1
    ensures r.0.bodies[..|world.bodies|] == world.bodies
    ensures r.0.bodies[|world.bodies|] == r.1
    ensures r.1 == Body(dynamic, Cylinder, world.nextBodyId, center, size, angle)
    ensures r.0.allowedStepSize == world.allowedStepSize && r.0.nextBodyId == world.nextBodyId
  {
    CreateBody(world, Cylinder, center, size, angle, dynamic)
  }

  /** `translate`: the center moves by `delta`; nothing else about the body
      changes. */
  function Translate(body: Body, delta: Vec3): (r: Body)
    ensures r.center.x == body.center.x + delta.x
    ensures r.center.y == body.center.y + delta.y
    ensures r.center.z == body.center.z + delta.z
    ensures r == body.(center := r.center)
  {
    body.(center := Add(body.center, delta))
  }

  /** Translating back by the opposite vector restores the body. */
  lemma TranslateBack(body: Body, delta: Vec3)
    ensures Translate(Translate(body, delta), Neg(delta)) == body
  {
  }

  /** Two translations are one by the sum of their vectors. */
  lemma TranslateTwice(body: Body, d1: Vec3, d2: Vec3)
    ensures Translate(Translate(body, d1), d2) == Translate(body, Add(d1, d2))
  {
  }

  /** The effect of `translate` on the world: `createBox` returns the very
      object it pushed, so moving it moves the world's element. Translating
      an object that is not in the world leaves the world as it is. */
  function TranslateAt(world: World, index: int, delta: Vec3): (r: World)
    ensures |r.bodies| == |world.bodies|
    ensures r.allowedStepSize == world.allowedStepSize && r.nextBodyId == world.nextBodyId
    ensures forall j :: 0 <= j < |world.bodies| && j != index ==> r.bodies[j] == world.bodies[j]
    ensures 0 <= index < |world.bodies| ==> r.bodies[index] == Translate(world.bodies[index], delta)
    ensures !(0 <= index < |world.bodies|) ==> r == world
  {
    if 0 <= index < |world.bodies| then
      world.(bodies := world.bodies[index := Translate(world.bodies[index], delta)])
    else world
  }

  /** `bodies.filter(b => b.dynamic)`, one body at a time. */
  function Filter(bodies: seq<Body>): seq<Body> {
    if bodies == [] then []
    else (if bodies[0].dynamic then [bodies[0]] else []) + Filter(bodies[1..])
  }

  /** The bodies `resolve` iterates over: `world.bodies.filter(b => b.dynamic)`.
      Every dynamic body is kept as often as it occurs and every other one
      dropped; `DynamicsAppend` adds that the order is kept. */
  function Dynamics(bodies: seq<Body>): (r: seq<Body>)
    ensures |r| <= |bodies|
    ensures forall i :: 0 <= i < |r| ==> r[i].dynamic && r[i] in bodies
    ensures forall b :: multiset(r)[b] == if b.dynamic then multiset(bodies)[b] else 0
  {
    FilterCounts(bodies);
    Filter(bodies)
  }

  lemma FilterCounts(bodies: seq<Body>)
    ensures |Filter(bodies)| <= |bodies|
    ensures forall i :: 0 <= i < |Filter(bodies)| ==> Filter(bodies)[i].dynamic && Filter(bodies)[i] in bodies
    ensures forall b :: multiset(Filter(bodies))[b] == if b.dynamic then multiset(bodies)[b] else 0
  {
    FilterLength(bodies);
    forall b {
      FilterCount(bodies, b);
    }
    forall i | 0 <= i < |Filter(bodies)|
      ensures Filter(bodies)[i].dynamic && Filter(bodies)[i] in bodies
    {
      var x := Filter(bodies)[i];
      assert multiset(Filter(bodies))[x] > 0;
    }
  }

  lemma {:induction false} FilterLength(bodies: seq<Body>)
    ensures |Filter(bodies)| <= |bodies|
  {
    if bodies != [] {
      FilterLength(bodies[1..]);
    }
  }

  lemma {:induction false} FilterCount(bodies: seq<Body>, b: Body)
    ensures multiset(Filter(bodies))[b] == if b.dynamic then multiset(bodies)[b] else 0
  {
    if bodies != [] {
      var head := if bodies[0].dynamic then [bodies[0]] else [];
      FilterCount(bodies[1..], b);
      assert bodies == [bodies[0]] + bodies[1..];
      assert multiset(bodies)[b] == multiset([bodies[0]])[b] + multiset(bodies[1..])[b];
      assert multiset(Filter(bodies))[b] == multiset(head)[b] + multiset(Filter(bodies[1..]))[b];
    }
  }

  /** The filter keeps the order: filtering a concatenation concatenates
      the filtered parts. */
  lemma {:induction false} DynamicsAppend(a: seq<Body>, b: seq<Body>)
    ensures Dynamics(a + b) == Dynamics(a) + Dynamics(b)
  {
    FilterAppend(a, b);
  }

  lemma {:induction false} FilterAppend(a: seq<Body>, b: seq<Body>)
    ensures Filter(a + b) == Filter(a) + Filter(b)
  {
    if a != [] {
      assert (a + b)[0] == a[0] && (a + b)[1..] == a[1..] + b;
      FilterAppend(a[1..], b);
    } else {
      assert a + b == b;
    }
  }

  /** `resolve`: the source computes the dynamic bodies and iterates over
      them with an empty loop body (src/simplephysics.ts:72-74); the loop
      below is that empty iteration, and the world comes back unchanged. */
  method Resolve(world: World) returns (r: World)
    ensures r == world
  {
    var dynamics := Dynamics(world.bodies);
    var i := 0;
    while i < |dynamics|
      invariant i <= |dynamics|
    {
      i := i + 1;
    }
    r := world;
  }

  // ---------------------------------------------------------------------------
  // Sequences of operations

  /** One call on a world. */
  datatype Op =
    | CreateBoxOp(center: Vec3, size: Vec3, angle: real, dynamic: bool)
    | CreateCylinderOp(center: Vec3, size: Vec3, angle: real, dynamic: bool)
    | TranslateOp(index: int, delta: Vec3)
    | ResolveOp

  function Apply(world: World, op: Op): World {
    match op
    case CreateBoxOp(c, s, a, d) => CreateBox(world, c, s, a, d).0
    case CreateCylinderOp(c, s, a, d) => CreateCylinder(world, c, s, a, d).0
    case TranslateOp(i, delta) => TranslateAt(world, i, delta)
    case ResolveOp => world
  }

  function Run(world: World, ops: seq<Op>): World
    decreases |ops|
  {
    if ops == [] then world else Run(Apply(world, ops[0]), ops[1..])
  }

  /** How many of `ops` create a body. */
  function Creations(ops: seq<Op>): nat {
    if ops == [] then 0
    else (if ops[0].CreateBoxOp? || ops[0].CreateCylinderOp? then 1 else 0) + Creations(ops[1..])
  }

  /** Two bodies agree in everything but their position. */
  predicate SameButCenter(a: Body, b: Body) {
    a == b.(center := a.center)
  }

  /** No operation touches the step size or the id counter. */
  lemma {:induction false} RunKeepsSettings(world: World, ops: seq<Op>)
    ensures Run(world, ops).allowedStepSize == world.allowedStepSize
    ensures Run(world, ops).nextBodyId == world.nextBodyId
    decreases |ops|
  {
    if ops != [] {
      RunKeepsSettings(Apply(world, ops[0]), ops[1..]);
    }
  }

  /** Bodies are only ever added, one per creation, and an existing body
      only ever changes its position. */
  lemma {:induction false} RunAppendsOnly(world: World, ops: seq<Op>)
    ensures |Run(world, ops).bodies| == |world.bodies| + Creations(ops)
    ensures forall i :: 0 <= i < |world.bodies| ==> SameButCenter(Run(world, ops).bodies[i], world.bodies[i])
    decreases |ops|
  {
    if ops != [] {
      var next := Apply(world, ops[0]);
      RunAppendsOnly(next, ops[1..]);
      forall i | 0 <= i < |world.bodies|
        ensures SameButCenter(next.bodies[i], world.bodies[i])
      {
      }
    }
  }

  /** Every body carries the id `id`. */
  predicate AllIdsAre(world: World, id: int) {
    forall i :: 0 <= i < |world.bodies| ==> world.bodies[i].id == id
  }

  /** Since the counter never advances, every body created in a world gets
      its current `nextBodyId`: all bodies share one id. */
  lemma {:induction false} RunSharesId(world: World, ops: seq<Op>)
    requires AllIdsAre(world, world.nextBodyId)
    ensures AllIdsAre(Run(world, ops), world.nextBodyId)
    decreases |ops|
  {
    if ops != [] {
      var next := Apply(world, ops[0]);
      assert AllIdsAre(next, next.nextBodyId);
      RunSharesId(next, ops[1..]);
    }
  }

  /** From `createWorld`, any sequence of calls leaves every body with id 1. */
  lemma FreshWorldIdsAreOne(allowedStepSize: real, ops: seq<Op>)
    ensures AllIdsAre(Run(CreateWorld(allowedStepSize), ops), 1)
  {
    RunSharesId(CreateWorld(allowedStepSize), ops);
  }

  /** Two consecutive creations return bodies with the same id. */
  lemma ConsecutiveCreationsShareId(world: World, c1: Vec3, s1: Vec3, a1: real, d1: bool,
                                    c2: Vec3, s2: Vec3, a2: real, d2: bool)
    ensures var (w1, b1) := CreateBox(world, c1, s1, a1, d1);
            var (_, b2) := CreateCylinder(w1, c2, s2, a2, d2);
            b1.id == b2.id
  {
  }
}

=== FILE: results.dfy ===
/** The two ways a JavaScript value can be missing or an operation can
    fail: a property that may be `undefined`, and a call that may throw. */
module Results {

  /** A value that may be absent, as JavaScript's `undefined`. */
  datatype Option<+T> = None | Some(value: T) {

    /** The carried value, or `default` when absent (JavaScript's `??`). */
    function GetOr(default: T): T {
      if Some? then value else default
    }
  }

  /** Either a computed value or the error a JavaScript function would throw. */
  datatype Result<+T, +E> = Success(value: T) | Failure(error: E)
}

=== FILE: vectors.dfy ===
/** Three-component vectors of reals, used both for the physics `Vec3`
    record and for the `number[]` triples of the game state. */
module Vectors {

  datatype Vec3 = Vec3(x: real, y: real, z: real)

  const Zero: Vec3 := Vec3(0.0, 0.0, 0.0)

  function Add(a: Vec3, b: Vec3): Vec3 {
    Vec3(a.x + b.x, a.y + b.y, a.z + b.z)
  }

  function Sub(a: Vec3, b: Vec3): Vec3 {
    Vec3(a.x - b.x, a.y - b.y, a.z - b.z)
  }

  function Neg(a: Vec3): Vec3 {
    Vec3(-a.x, -a.y, -a.z)
  }
}
